=== FILE: README.md ===
# ThreadPool scheduling and lifecycle, as a transition system

This project models the bookkeeping of `ThreadPool` in `threadpool.py`. That class is a
worker pool that grows lazily up to `max_num` threads. Threads pull `(func, args, callback)`
tuples from a shared FIFO queue until they see the stop sentinel `StopEvent`. It has two ways
to shut down: `close` (drain, then stop) and `terminate` (stop after the current task, then
discard the queue).

Each thread action is one atomic step on an immutable pool state. An interleaving of threads
is a sequence of steps.

- `TaskQueue` (task_queue.dfy): the queue element type `Item = Task(id, hasCallback) | Stop`.
  The tagged `Stop` replaces the sentinel object. This module also has the "stops trail
  tasks" ordering and the task filter `Tasks`.
- `Lists` (lists.dfy): Python's `list.remove`, which deletes the *first* occurrence. The pool
  uses it on `generate_list` and `free_list`.
- `Pool` (pool.dfy): the state (`max_num`, `cancel`, `terminal`, `generate_list`,
  `free_list`, the queue, the phase of every worker thread, the callback invocations so
  far) and the caller operations. These are `New`, `Submit` (`run`, whose body behind the
  `cancel` test is `Enqueue`), `Close`, and
  `terminate` split into `BeginTerminate`, `PushStop` (one turn of its waiting loop) and
  `FinishTerminate`.
- `Worker` (worker.dfy): the loop `call`, cut into `FirstFetch`, `RunTask`, `IdleCheck`,
  `IdleGet` and `Exit`. It also holds the idle guard `worker_state` (`EnterIdle`/`LeaveIdle`)
  and the callback arguments `Report`.
- `Machine` (machine.dfy): the step alphabet, `Enabled`/`Next`, `Execute` over a trace, the
  invariant `Inv`, and the proof that every step keeps it.
- `Properties` (properties.dfy): what the pool promises, stated over the transition system.
- `RacySpawn` (racy_spawn.dfy): `run` with the registration left to the new thread, as the
  code has it, and the input on which it creates more than `max_num` threads.
- `RacyRun` (racy_run.dfy): `run` with its `cancel` test and its `put` as separate actions, as
  the code has them, and the input on which a task is left behind the stop markers.

Modelling choices:
- **Atomic spawn.** The source's new thread appends itself to `generate_list` inside the
  thread (threadpool.py:68), not inside `run` (threadpool.py:49-50). In the main model the
  spawn and the registration are one step inside `Submit`, and the bound "at most `max_num`
  workers" is proved under this atomicity. The code as written is modelled separately in
  `RacySpawn` (racy_spawn.dfy), where two `run` calls can both read the old length before
  either new thread registers; see "## Findings".
- **Atomic `run`.** `run` tests `cancel` (threadpool.py:46) and puts the task
  (threadpool.py:53) as separate actions. In the main model `Submit` does both in one step,
  and the results about `close` hold under this atomicity. The code as written is modelled
  separately in `RacyRun`; see "## Findings".
- **Blocking is disablement.** A blocked `q.get()` is a step that is not enabled while the
  queue is empty. `terminate`'s busy loop (threadpool.py:112-113) becomes `PushStop`, which
  is enabled while workers remain. `FinishTerminate` is enabled once none remain.
- **Separate `terminal` test.** Inside the idle guard, the `terminal` test (threadpool.py:89)
  and the `q.get()` (threadpool.py:92) are separate steps, as they are in the source.
- **First fetch.** A worker's first `q.get()` (threadpool.py:70) lies outside the idle guard.
  So a worker blocked there is not in `free_list`, and `run` does not count it as idle.
- **Abstract outcomes.** Task functions and callbacks are abstract outcomes. The task returns
  a `Value` (`NoneValue` is `None`) or raises an `Exception`. The callback returns or raises
  an `Exception`. Other `BaseException`s are not modelled (see "## Left out").
- **`max_num` is not checked.** `max_num` is an unchecked `int`, as in the constructor
  (threadpool.py:32). The worker bound is `Bound(max_num) = max(0, max_num)`.

Behaviours of the code a caller may not expect:
- `run` tests only `cancel` (threadpool.py:46), and `terminate` sets only `terminal`
  (threadpool.py:110). So a task submitted after `terminate` is still queued, a worker is
  spawned for it, and its callback fires (`Properties.SubmitAfterTerminateStillRuns`). It is
  not dropped.
- Tasks still queued when `terminate` is called can still run. A worker's first fetch does
  not test `terminal` (`Properties.QueuedTaskRunsAfterTerminate`). A worker that passed the
  `terminal` test before it was raised also takes the next task
  (`Properties.WaitingWorkerClaimsTaskAfterTerminate`).
- The constructor does not reject `max_num <= 0`. Such a pool never spawns a worker.
- `run`'s docstring (threadpool.py:44) says it returns `True` once the pool has shut down and
  `None` otherwise. The bare `return` at threadpool.py:47 and the fall-through at the end give
  `None` on every path, so a caller cannot tell that a task was dropped after `close`. The
  model's `Submit` returns only the new state, so this is recorded here and not proved.

## Model

| member | source | states |
|---|---|---|
| Lists.Remove | threadpool.py:94 | `list.remove(x)` yields the list with exactly the first occurrence of `x` cut out |
| Lists.RemoveContents | threadpool.py:126 | removal takes exactly one copy of the value out of the list's contents |
| Lists.RemoveExactly | threadpool.py:94 | on a duplicate-free list, removal deletes that value and keeps all others, shortens the list by one and keeps it duplicate-free |
| Lists.RemoveAppended | threadpool.py:122-126 | appending an absent value and then removing it gives back the original list |
| TaskQueue.Stops | threadpool.py:102-104 | the stop burst has the requested length and holds nothing but stop markers |
| TaskQueue.Tasks | threadpool.py:71 | the queue's tasks with the stop markers dropped: only tasks, and every task the queue holds, as many times as it holds it |
| TaskQueue.TasksAppend | threadpool.py:102-104 | the tasks of a queue with items appended are its own tasks followed by those of the appended items, so the tasks keep their queue order |
| TaskQueue.StopHeadMeansDrained | threadpool.py:70-71 | when stops trail tasks and the head is a stop, no task is left |
| Pool.New | threadpool.py:27-36 | a new pool has both flags down, no generated or idle worker, an empty queue and no callback calls |
| Pool.Enqueue | threadpool.py:49-53 | behind the `cancel` test, a worker is spawned and registered exactly under the growth rule, and the task is appended at the tail with the earlier items in order |
| Pool.Submit | threadpool.py:38-53 | after `cancel`, nothing changes; otherwise exactly one task is added at the tail with the earlier items in order; a worker is spawned and registered exactly under the growth rule; the worker bound is kept |
| Pool.Close | threadpool.py:96-104 | raises `cancel`, keeps the queued items as a prefix and appends exactly `len(generate_list) + 1` stop markers; nothing else changes |
| Pool.PushStop | threadpool.py:112-113 | while workers remain, a stop marker is added at the tail; the queued tasks stay the same, in the same order, and stops still trail tasks if they did |
| Worker.Report | threadpool.py:74-79 | a callback call has success true exactly when the task returned; a raise reports `None` |
| Worker.EnterIdle | threadpool.py:122 | entering the guard makes the worker a member and keeps every earlier member |
| Worker.LeaveIdle | threadpool.py:123-126 | leaving the guard takes exactly one copy of the worker out of `free_list` |
| Worker.FirstFetch | threadpool.py:67-70 | a fresh worker takes the queue's head without looking at `terminal`; other workers are untouched |
| Worker.RunTask | threadpool.py:73-87 | after a task, the callback is called once, with the reported outcome, exactly when one was given; the worker then enters the idle guard |
| Worker.IdleCheck | threadpool.py:87-90 | with `terminal` up, the next item is a stop, nothing is dequeued and the guard is left; otherwise the worker waits, still in the guard |
| Worker.IdleGet | threadpool.py:91-92 | the waiting worker receives the queue's head and leaves the guard |
| Worker.Exit | threadpool.py:93-94 | a worker holding a stop leaves `generate_list`, which shrinks by exactly one |
| Machine.NewSatisfiesInv | threadpool.py:27-36 | a fresh pool meets the invariant |
| Machine.NextPreservesInv | threadpool.py:38-126 | every step keeps the invariant: lists agree with worker phases, the worker bound holds, stops trail tasks until `terminate`, and no worker meets a stop before the queue is drained |
| Machine.Execute | threadpool.py:38-126 | any interleaving of enabled steps from a state meeting the invariant ends in a state meeting it |
| Machine.ReachableInv | threadpool.py:19-126 | every state reachable from a fresh pool meets the invariant |
| Properties.SpawnOnlyWithoutIdleWorker | threadpool.py:49-50 | `run` adds a worker exactly when the pool is open, no worker is in the idle guard and fewer than `max_num` exist, and then adds exactly one; the count stays within the bound |
| Properties.RunningTasksBounded | threadpool.py:21-24 | no more tasks run at once than there are generated workers, which is at most `max_num` |
| Properties.ReachableGrowthBound | threadpool.py:21-24 | in every reachable state, generated workers and running tasks are within `max_num` |
| Properties.SpawnsBoundedBySubmits | threadpool.py:49-61 | along any interleaving, the identities handed out grow by at most the number of `run` calls: only `run` spawns, one worker at most |
| Properties.GrowthBoundedBySubmissions | threadpool.py:21-24 | from a fresh pool, generated workers and running tasks never exceed the number of `run` calls nor `max_num`: 10 allowed and 2 tasks start at most 2 threads |
| Properties.CloseQueueShape | threadpool.py:100-104 | closing an open pool leaves the queue as the submitted tasks in order, then exactly `len(generate_list) + 1` stops, none before a task |
| Properties.ClosedStepDrainsFromFront | threadpool.py:46-47 | once `cancel` is up it stays up, and in any step the queued tasks only lose elements from the front |
| Properties.ClosedTasksDrainFromFront | threadpool.py:46-47 | along any interleaving after `close`, the queued tasks are a suffix of those queued at its start: no task ever enters behind the stops |
| Properties.StopOnlyAfterDrain | threadpool.py:70-71 | short of `terminate`, a worker holding or past a stop implies the pool is closed and no task is left queued |
| Properties.LeavesGeneratedOnlyOnStop | threadpool.py:93-94 | a worker leaves `generate_list` in a step exactly when the step is its own exit, taken only while holding a stop, never a task |
| Properties.ExitedStaysOut | threadpool.py:93-94 | an exited worker stays exited and never rejoins `generate_list`, so it is removed exactly once |
| Properties.WorkerStateRestoresIdle | threadpool.py:117-126 | the guard makes the worker a member and on exit restores the list's contents, and the list itself when the worker was absent before |
| Properties.IdleGuardRoundTrip | threadpool.py:87-92 | after a task, the worker is in `free_list` inside the guard, and both exits (terminal stop, or next item) restore `free_list` to its value before |
| Properties.RunEntersGuard | threadpool.py:87-89 | a worker that finished a task is in the guard and can always take the `terminal` test |
| Properties.RunThenLeave | threadpool.py:89-90 | with `terminal` up, leaving right after entering restores `free_list` |
| Properties.RunWaitThenLeave | threadpool.py:91-92 | with `terminal` down, waiting and receiving the next item restores `free_list` |
| Properties.LeaveIdleRemovesOnlySelf | threadpool.py:125-126 | leaving the guard removes that worker and no other, whatever happened meanwhile |
| Properties.ReportRoundTrip | threadpool.py:74-83 | a callback's `(success, result)` identifies the task's outcome: `Worker.OutcomeOf` recovers it from the report |
| Properties.CallbackFailureIsolated | threadpool.py:81-85 | a raising callback leaves the pool exactly as a returning one does |
| Properties.TerminalIdleWorkerStops | threadpool.py:89-90 | with `terminal` up, a worker that finished a task is never blocked, gets a stop and leaves the queue untouched |
| Properties.TerminateLeavesRunOpen | threadpool.py:46-53 | after `terminate` raises `terminal` at line 110 (`Pool.BeginTerminate`), `run` on an open pool still queues the task at the tail and still spawns exactly under the growth rule |
| Properties.TerminateCompletes | threadpool.py:106-115 | the last step of `terminate` (`Pool.FinishTerminate`), enabled once `generate_list` is empty, leaves `terminal` up, the queue empty and every worker exited |
| Properties.SubmitAfterTerminateStillRuns | threadpool.py:46-47 | after `terminate` alone, a submitted task still spawns a worker, runs, and has its callback called |
| Properties.QueuedTaskRunsAfterTerminate | threadpool.py:70 | a task queued before `terminate` can still be fetched by a fresh worker and reported |
| Properties.WaitingWorkerClaimsTaskAfterTerminate | threadpool.py:89-92 | a worker that passed the `terminal` test before `terminate` receives a task submitted after that test, whether `run` comes before or after `terminate` raises `terminal` |
| RacySpawn.SubmitAsWritten | threadpool.py:46-53 | `run` as written starts a thread under the growth rule but leaves `generate_list` unchanged; the task is queued at the tail unless the pool is closed |
| RacySpawn.Register | threadpool.py:67-68 | a started thread appends itself to `generate_list` and goes on to its first fetch |
| RacyRun.LateRunStrandsTask | threadpool.py:46-53 | a `run` that passed its `cancel` test before a complete `close` (lines 96-104) puts its task behind the stop marker; the new worker draws the stop and exits, and the task stays queued with no worker and no way to spawn one |
| RacySpawn.AsWrittenExceedsMax | threadpool.py:49-50 | with `max_num` 1, two `run` calls before the first thread registers start two threads, and `generate_list` later holds two |

## Left out

- Real threads, `threading.Thread`, `start` and `currentThread` (threadpool.py:60-61, 67). Worker identity is a number handed out at spawn. Interleaving is the choice of the next enabled step.
- The queue capacity `max_task_num` (threadpool.py:28-31). `put` never blocks in the model, because blocking is a concurrency concern. The capacity's truthiness test is not modelled either.
- The racy registration in the full transition system (threadpool.py:68). `Machine` uses the atomic spawn of `Pool.Submit`; the as-written spawn appears only in `RacySpawn`, which has no invariant, because the worker bound fails there.
- `close`'s loop of `put` calls (threadpool.py:102-104) is one atomic step.
- The bodies of task functions and callbacks (threadpool.py:75, 83) are foreign calls. They appear as abstract outcomes, and a raising callback is the `CallbackRaised` outcome.
- The `ValueError` that `list.remove` raises on a missing element. Step guards require membership, and `Inv` shows that the phase already implies it.
- Liveness ("every task submitted before `close` eventually gets its callback", the drain time of the scenarios). Only safety properties are proved.
- The Python 2/3 import shim (threadpool.py:8-12) and the `__main__` demo (threadpool.py:129-142).
- Properties.RunningTasksBounded: bounds simultaneously running tasks by `max_num` only, because a single state does not record how many tasks were submitted. The bound by the number of `run` calls is `Properties.GrowthBoundedBySubmissions`, over traces.
- Properties.ReachableGrowthBound: bounds by `max_num` only, for the same reason. `Properties.GrowthBoundedBySubmissions` adds the bound by the number of tasks.
- Pool.Submit: the `cancel` test (threadpool.py:46) and the `put` (threadpool.py:53) are one step. `Properties.CloseQueueShape`, `Properties.ClosedStepDrainsFromFront`, `Properties.ClosedTasksDrainFromFront` and `Properties.StopOnlyAfterDrain` hold only under this atomicity. `RacyRun.LateRunStrandsTask` shows the interleaving the code allows.
- Worker.IdleGet: `q.get()` (threadpool.py:92) and the removal from `free_list` in the guard's `finally` (threadpool.py:126) are one step. The source state "holding an item, still in `free_list`" is missing. In that state the source's `run` does not spawn, while the model's may. The bounds are unaffected, since they come from `generate_list`.
- Worker.IdleCheck: on the `terminal` path, taking the stop marker (threadpool.py:89-90) and the removal from `free_list` in the guard's `finally` (threadpool.py:126) are one step. The source state "holding a stop marker, still in `free_list`" is missing, and in it the source's `run` does not spawn while the model's may. So "no worker in the idle guard" in `Properties.SpawnOnlyWithoutIdleWorker` means the guard as the model draws it, which a worker leaves as soon as it has its next item. The bounds are unaffected, since they come from `generate_list`.
- Worker.RunTask: only `Exception` subclasses are modelled as raises (threadpool.py:77, 84). A `BaseException` such as `SystemExit` from a task or callback ends the thread without a callback and without the removal at threadpool.py:94. The worker then stays in `generate_list` and `terminate`'s loop never ends. `Properties.LeavesGeneratedOnlyOnStop` and `Properties.TerminateCompletes` do not cover that case.
- Properties.TerminateCompletes: `Pool.FinishTerminate` merges the last `while self.generate_list` test (threadpool.py:112) with `self.q.queue.clear()` (threadpool.py:115), and the clear does not test the list again. In the source a `run` between these two lines (threadpool.py:46-53) spawns a thread that registers itself (threadpool.py:68) and blocks in its first `q.get()` (threadpool.py:70). Its task is then discarded by the clear, `terminate` returns with that thread still in `generate_list` and blocked for good, and the callback is never called. The model cannot lose that task, and its `generated == []` holds only because of the merge. The model also does not record whether `terminate` is still running, so `Pool.PushStop` is enabled again after `terminate` has returned once a later `run` spawns a worker. This over-approximation adds interleavings and leaves the safety results sound.
- Properties.IdleGuardRoundTrip: restores `free_list` exactly only when no other thread acts inside the guard. With interleaving, `Properties.LeaveIdleRemovesOnlySelf` states the weaker "only this worker is removed".

## Findings

| source | as written | input that shows it | evidently intended | confidence | as-written member | corrected member |
|---|---|---|---|---|---|---|
| threadpool.py:49-50, 68 | the growth test reads `len(generate_list)` in `run`, but a new thread adds itself to that list only later, inside `call` | `ThreadPool(1)`, then two `run` calls before the first thread reaches line 68: both see an empty `generate_list` and two threads start | at most `max_num` threads, so the spawn should register the thread before `run` returns | not executed; high that the race exists, medium that it is unintended | RacySpawn.AsWrittenExceedsMax | Pool.Submit (bound over every interleaving in Properties.ReachableGrowthBound) |
| threadpool.py:46-53, 96-104 | `run` tests `cancel` at line 46 and puts the task at line 53; nothing stops `close` from running completely in between | `ThreadPool(1)`, a `run` that passes line 46, then a complete `close` (one stop marker), then the rest of the `run`: the queue is `[StopEvent, task]`, the new worker draws the stop and exits, and the task is never run | a task accepted by `run` before `close` runs before the workers stop, so the test and the `put` should be one atomic action | not executed; high that the interleaving exists, medium that it is unintended (it needs `run` and `close` on different threads) | RacyRun.LateRunStrandsTask | Pool.Submit (drain order over every interleaving in Properties.ClosedTasksDrainFromFront and Properties.StopOnlyAfterDrain) |

=== FILE: lists.dfy ===
/** Python list operations the pool applies to its worker lists
    (`generate_list`, `free_list`): append, and `remove`, which deletes the
    FIRST occurrence of a value. */
module Lists {

  /** No value occurs twice in `s`. */
  predicate NoDup<T(==)>(s: seq<T>) {
    forall i, j :: 0 <= i < j < |s| ==> s[i] != s[j]
  }

  /** Position of the first occurrence of `x` in `s`. */
  function IndexOf<T(==)>(s: seq<T>, x: T): (i: nat)
    requires x in s
    ensures i < |s| && s[i] == x
    ensures forall j :: 0 <= j < i ==> s[j] != x
  {
    if s[0] == x then 0 else 1 + IndexOf(s[1..], x)
  }

  /** `list.remove(x)`: cuts out the first occurrence of `x`. Python raises
      ValueError when `x` is absent; the pool only removes workers that are
      present, so that path is excluded here. */
  function Remove<T(==)>(s: seq<T>, x: T): (r: seq<T>)
    requires x in s
    ensures r == s[..IndexOf(s, x)] + s[IndexOf(s, x) + 1..]
  {
    if s[0] == x then
      assert s == [s[0]] + s[1..];
      s[1..]
    else
      var rest := Remove(s[1..], x);
      var i := IndexOf(s[1..], x);
      assert IndexOf(s, x) == i + 1;
      assert s[..i + 1] == [s[0]] + s[1..][..i];
      assert s[i + 2..] == s[1..][i + 1..];
      assert s == [s[0]] + s[1..];
      [s[0]] + rest
  }

  /** `remove(x)` takes exactly one copy of `x` out of the list's contents. */
  lemma RemoveContents<T>(s: seq<T>, x: T)
    requires x in s
    ensures multiset(Remove(s, x)) == multiset(s) - multiset{x}
  {
    var i := IndexOf(s, x);
    assert s == s[..i] + [x] + s[i + 1..];
  }

  /** Removing keeps every other value and drops `x` itself when it occurred once. */
  lemma RemoveMembers<T>(s: seq<T>, x: T, y: T)
    requires x in s
    ensures y != x ==> (y in Remove(s, x) <==> y in s)
    ensures NoDup(s) ==> x !in Remove(s, x)
  {
    RemoveContents(s, x);
  }

  /** Removing from a duplicate-free list keeps it duplicate-free. */
  lemma RemoveNoDup<T>(s: seq<T>, x: T)
    requires x in s && NoDup(s)
    ensures NoDup(Remove(s, x))
  {
    var i := IndexOf(s, x);
    var r := Remove(s, x);
    forall a, b | 0 <= a < b < |r|
      ensures r[a] != r[b]
    {
      var a' := if a < i then a else a + 1;
      var b' := if b < i then b else b + 1;
      assert r[a] == s[a'] && r[b] == s[b'];
    }
  }

  /** On a duplicate-free list, `remove(x)` deletes exactly `x`, shortens the
      list by one and keeps it duplicate-free. */
  lemma RemoveExactly<T>(s: seq<T>, x: T)
    requires x in s && NoDup(s)
    ensures NoDup(Remove(s, x))
    ensures x !in Remove(s, x)
    ensures forall y :: y != x ==> (y in Remove(s, x) <==> y in s)
    ensures |Remove(s, x)| == |s| - 1
  {
    RemoveNoDup(s, x);
    RemoveMembers(s, x, x);
    forall y | y != x
      ensures y in Remove(s, x) <==> y in s
    {
      RemoveMembers(s, x, y);
    }
  }

  /** Appending a value that is absent keeps a list duplicate-free. */
  lemma AppendFresh<T>(s: seq<T>, x: T)
    requires NoDup(s) && x !in s
    ensures NoDup(s + [x])
  {
  }

  /** Appending a value and then removing it restores the list, provided the
      value was absent (otherwise `remove` would cut an earlier copy). */
  lemma {:induction false} RemoveAppended<T>(s: seq<T>, x: T)
    requires x !in s
    ensures Remove(s + [x], x) == s
  {
    assert (s + [x])[|s|] == x;
    assert IndexOf(s + [x], x) == |s|;
    assert (s + [x])[..|s|] == s;
  }

  /** Appending then removing any value restores the list's contents as a
      multiset, whether or not the value was already present. */
  lemma RemoveAppendedContents<T>(s: seq<T>, x: T)
    ensures multiset(Remove(s + [x], x)) == multiset(s)
  {
    assert x in s + [x] by { assert (s + [x])[|s|] == x; }
    RemoveContents(s + [x], x);
  }
}

=== FILE: machine.dfy ===
/** The pool as a transition system: every thread action is one atomic step,
    and an interleaving of threads is a sequence of steps. This module states
    the pool's invariant and proves that every step keeps it. */
module Machine {
  import opened Lists
  import opened TaskQueue
  import opened Pool
  import opened Worker

  datatype Option<T> = None | Some(value: T)

  /** One atomic action, by a caller or by worker `w`. */
  datatype Step =
    | SubmitStep(id: nat, hasCallback: bool)
    | CloseStep
    | TerminateStep
    | PushStopStep
    | FinishTerminateStep
    | FetchStep(w: nat)
    | RunStep(w: nat, outcome: Outcome, cb: CallbackEnd)
    | CheckStep(w: nat)
    | GetStep(w: nat)
    | ExitStep(w: nat)

  /** Whether a step can be taken now; a blocked `q.get()` is a disabled step. */
  predicate Enabled(p: Pool, s: Step) {
    match s
    case SubmitStep(_, _) => true
    case CloseStep => true
    case TerminateStep => true
    case PushStopStep => p.terminal && |p.generated| > 0
    case FinishTerminateStep => p.terminal && |p.generated| == 0
    case FetchStep(w) => InPhase(p, w, Fetching) && |p.queue| > 0
    case RunStep(w, _, _) => w in p.workers && p.workers[w].Holding? && p.workers[w].item.Task?
    case CheckStep(w) => InPhase(p, w, Idle) && w in p.free
    case GetStep(w) => InPhase(p, w, Waiting) && w in p.free && |p.queue| > 0
    case ExitStep(w) => InPhase(p, w, Holding(Stop)) && w in p.generated
  }

  function Next(p: Pool, s: Step): Pool
    requires Enabled(p, s)
  {
    match s
    case SubmitStep(id, cb) => Submit(p, id, cb)
    case CloseStep => Close(p)
    case TerminateStep => BeginTerminate(p)
    case PushStopStep => PushStop(p)
    case FinishTerminateStep => FinishTerminate(p)
    case FetchStep(w) => FirstFetch(p, w)
    case RunStep(w, o, cb) => RunTask(p, w, o, cb)
    case CheckStep(w) => IdleCheck(p, w)
    case GetStep(w) => IdleGet(p, w)
    case ExitStep(w) => Exit(p, w)
  }

  /** A worker that has drawn a stop marker, or has already left. */
  predicate Stopped(ph: Phase) {
    ph == Holding(Stop) || ph == Exited
  }

  /** Inside the idle guard. */
  predicate InGuard(ph: Phase) {
    ph == Idle || ph == Waiting
  }

  /** `generate_list` holds exactly the workers that have not exited. */
  ghost predicate GeneratedMatchesLive(p: Pool) {
    && (forall w :: w in p.generated ==> w in p.workers && p.workers[w] != Exited)
    && (forall w :: w in p.workers && p.workers[w] != Exited ==> w in p.generated)
  }

  /** `free_list` holds exactly the workers inside the idle guard. */
  ghost predicate FreeMatchesGuard(p: Pool) {
    && (forall w :: w in p.free ==> w in p.workers && InGuard(p.workers[w]))
    && (forall w :: w in p.workers && InGuard(p.workers[w]) ==> w in p.free)
  }

  /** `generate_list` and `free_list` agree with the workers' phases: a worker
      is generated exactly until it exits, and idle exactly inside the guard. */
  ghost predicate Bookkeeping(p: Pool) {
    && NoDup(p.generated) && NoDup(p.free)
    && (forall w :: w in p.workers ==> w < p.nextId)
    && GeneratedMatchesLive(p)
    && FreeMatchesGuard(p)
  }

  /** Stop markers only come from `close` and `terminate`; short of
      `terminate`, none stands in front of a task. */
  ghost predicate QueueOrdered(p: Pool) {
    && (!p.terminal ==> StopsTrail(p.queue))
    && (!p.cancel && !p.terminal ==> Stop !in p.queue)
  }

  /** Short of `terminate`, once any worker has drawn a stop marker the pool
      is closed and no task is left in the queue. */
  ghost predicate DrainedBeforeStop(p: Pool) {
    forall w :: w in p.workers && Stopped(p.workers[w]) && !p.terminal ==>
      p.cancel && AllStops(p.queue)
  }

  ghost predicate Inv(p: Pool) {
    && Bookkeeping(p)
    && |p.generated| <= Bound(p.maxNum)
    && QueueOrdered(p)
    && DrainedBeforeStop(p)
  }

  lemma NewSatisfiesInv(maxNum: int)
    ensures Inv(New(maxNum))
  {
  }

  lemma SubmitPreservesInv(p: Pool, id: nat, cb: bool)
    requires Inv(p)
    ensures Inv(Submit(p, id, cb))
  {
    var r := Submit(p, id, cb);
    if !p.cancel {
      if ShouldSpawn(p) {
        assert p.nextId !in p.workers;
        AppendFresh(p.generated, p.nextId);
      }
      if !p.terminal {
        AppendTask(p.queue, Task(id, cb));
      }
    }
  }

  lemma ClosePreservesInv(p: Pool)
    requires Inv(p)
    ensures Inv(Close(p))
  {
    var r := Close(p);
    var stops := Stops(|p.generated| + 1);
    assert r.queue == p.queue + stops;
    if !p.terminal {
      AppendStops(p.queue, stops);
    }
    forall w | w in r.workers && Stopped(r.workers[w]) && !r.terminal
      ensures AllStops(r.queue)
    {
      assert AllStops(p.queue);
    }
  }

  /** A worker that is not stopped takes the head of the queue: the queue
      stays ordered, and if the head was a stop marker the queue was drained. */
  lemma TakeHeadKeepsOrder(p: Pool, r: Pool, w: nat)
    requires Inv(p) && !p.terminal && |p.queue| > 0
    requires w in p.workers && !Stopped(p.workers[w])
    requires r.queue == p.queue[1..] && r.workers == p.workers[w := Holding(p.queue[0])]
    requires r.cancel == p.cancel && r.terminal == p.terminal
    ensures QueueOrdered(r) && DrainedBeforeStop(r)
  {
    DequeueKeepsOrder(p.queue);
    if p.queue[0] == Stop {
      StopHeadMeansDrained(p.queue);
    } else {
      assert !AllStops(p.queue);
    }
  }

  /** A worker leaving the idle guard for a live phase keeps the lists in step
      with the phases. */
  lemma LeaveIdleKeepsBookkeeping(p: Pool, r: Pool, w: nat, ph: Phase)
    requires Bookkeeping(p) && w in p.workers && InGuard(p.workers[w]) && w in p.free
    requires !InGuard(ph) && ph != Exited
    requires r.free == Remove(p.free, w) && r.workers == p.workers[w := ph]
    requires r.generated == p.generated && r.nextId == p.nextId
    ensures Bookkeeping(r)
  {
    RemoveExactly(p.free, w);
  }

  lemma FetchPreservesInv(p: Pool, w: nat)
    requires Inv(p) && Enabled(p, FetchStep(w))
    ensures Inv(Next(p, FetchStep(w)))
  {
    if !p.terminal {
      TakeHeadKeepsOrder(p, FirstFetch(p, w), w);
    }
  }

  lemma RunPreservesInv(p: Pool, w: nat, o: Outcome, cb: CallbackEnd)
    requires Inv(p) && Enabled(p, RunStep(w, o, cb))
    ensures Inv(Next(p, RunStep(w, o, cb)))
  {
    assert w !in p.free;
    AppendFresh(p.free, w);
  }

  lemma CheckPreservesInv(p: Pool, w: nat)
    requires Inv(p) && Enabled(p, CheckStep(w))
    ensures Inv(Next(p, CheckStep(w)))
  {
    if p.terminal {
      LeaveIdleKeepsBookkeeping(p, IdleCheck(p, w), w, Holding(Stop));
    }
  }

  lemma GetPreservesInv(p: Pool, w: nat)
    requires Inv(p) && Enabled(p, GetStep(w))
    ensures Inv(Next(p, GetStep(w)))
  {
    var r := IdleGet(p, w);
    LeaveIdleKeepsBookkeeping(p, r, w, Holding(p.queue[0]));
    if !p.terminal {
      TakeHeadKeepsOrder(p, r, w);
    }
  }

  lemma ExitPreservesInv(p: Pool, w: nat)
    requires Inv(p) && Enabled(p, ExitStep(w))
    ensures Inv(Next(p, ExitStep(w)))
  {
    var r := Exit(p, w);
    ExitKeepsGenerated(p, r, w);
    ExitKeepsFree(p, r, w);
  }

  /** `free_list` does not hold a worker that is not in the guard, so an exit
      leaves it matching the guard. */
  lemma ExitKeepsFree(p: Pool, r: Pool, w: nat)
    requires FreeMatchesGuard(p) && w in p.workers && !InGuard(p.workers[w])
    requires r.free == p.free && r.workers == p.workers[w := Exited]
    ensures FreeMatchesGuard(r)
  {
    assert w !in p.free;
  }

  /** `generate_list` loses the exiting worker and keeps matching the live
      workers. */
  lemma ExitKeepsGenerated(p: Pool, r: Pool, w: nat)
    requires GeneratedMatchesLive(p) && NoDup(p.generated)
    requires w in p.generated && w in p.workers
    requires r.generated == Remove(p.generated, w) && r.workers == p.workers[w := Exited]
    ensures GeneratedMatchesLive(r) && NoDup(r.generated)
  {
    RemoveExactly(p.generated, w);
  }

  /** Every step keeps the invariant. */
  lemma NextPreservesInv(p: Pool, s: Step)
    requires Enabled(p, s)
    ensures Inv(p) ==> Inv(Next(p, s))
  {
    if Inv(p) {
      match s
      case SubmitStep(id, cb) => SubmitPreservesInv(p, id, cb);
      case CloseStep => ClosePreservesInv(p);
      case TerminateStep =>
      case PushStopStep =>
      case FinishTerminateStep =>
      case FetchStep(w) => FetchPreservesInv(p, w);
      case RunStep(w, o, cb) => RunPreservesInv(p, w, o, cb);
      case CheckStep(w) => CheckPreservesInv(p, w);
      case GetStep(w) => GetPreservesInv(p, w);
      case ExitStep(w) => ExitPreservesInv(p, w);
    }
  }

  /** Runs an interleaving of steps; `None` when some step is not enabled at
      its turn. */
  function Execute(p: Pool, trace: seq<Step>): (r: Option<Pool>)
    ensures Inv(p) && r.Some? ==> Inv(r.value)
    ensures r.Some? ==> r.value.maxNum == p.maxNum
    decreases |trace|
  {
    if trace == [] then Some(p)
    else if !Enabled(p, trace[0]) then None
    else
      NextPreservesInv(p, trace[0]);
      Execute(Next(p, trace[0]), trace[1..])
  }

  /** Running a trace is taking its first step, then the rest. */
  lemma ExecuteFirst(p: Pool, s: Step, rest: seq<Step>)
    requires Enabled(p, s)
    ensures Execute(p, [s] + rest) == Execute(Next(p, s), rest)
  {
    assert ([s] + rest)[0] == s && ([s] + rest)[1..] == rest;
  }

  /** A state some interleaving of steps reaches from a fresh pool. */
  ghost predicate Reachable(p: Pool) {
    exists maxNum: int, trace: seq<Step> :: Execute(New(maxNum), trace) == Some(p)
  }

  lemma ReachableInv(p: Pool)
    requires Reachable(p)
    ensures Inv(p)
  {
    var maxNum: int, trace: seq<Step> :| Execute(New(maxNum), trace) == Some(p);
    NewSatisfiesInv(maxNum);
  }
}

=== FILE: pool.dfy ===
/** The pool's shared state and the controller operations a caller invokes:
    construction, `run` (called Submit here), `close` and `terminate`. */
module Pool {
  import opened Lists
  import opened TaskQueue

  /** A worker's position in its loop (`ThreadPool.call`).
      - Starting: started but not yet registered in `generate_list` (only
        under the as-written spawn of module `RacySpawn`).
      - Fetching: registered, blocked in the first `q.get()`, which lies
        outside the idle guard.
      - Holding(item): has an item and is at the loop test.
      - Idle: inside the idle guard, about to test `terminal`.
      - Waiting: inside the idle guard, found `terminal` down and is blocked
        in `q.get()`.
      - Exited: drew a stop marker and left `generate_list`. */
  datatype Phase = Starting | Fetching | Holding(item: Item) | Idle | Waiting | Exited

  /** A value a task function returns; `NoneValue` is Python's `None`. */
  datatype Value = NoneValue | Obj(ref: nat)

  /** One callback invocation `callback(success, result)` for task `task`. */
  datatype Invocation = Invocation(task: nat, success: bool, result: Value)

  /** The pool's state. `generated` and `free` are `generate_list` and
      `free_list`; `workers` gives each thread ever spawned its phase, and
      `nextId` is the identity the next spawned thread receives. `callbacks`
      lists the callback invocations made so far, in order. */
  datatype Pool = Pool(
    maxNum: int,
    cancel: bool,
    terminal: bool,
    generated: seq<nat>,
    free: seq<nat>,
    queue: seq<Item>,
    workers: map<nat, Phase>,
    nextId: nat,
    callbacks: seq<Invocation>)

  /** The most workers the growth rule can create for `maxNum`. */
  function Bound(maxNum: int): nat {
    if maxNum < 0 then 0 else maxNum
  }

  /** `ThreadPool(max_num)`: both flags down, no workers, empty queue. The
      constructor does not validate `max_num`. */
  function New(maxNum: int): (p: Pool)
    ensures p.maxNum == maxNum && !p.cancel && !p.terminal
    ensures |p.generated| == 0 && |p.free| == 0 && |p.queue| == 0
    ensures |p.workers| == 0 && |p.callbacks| == 0
  {
    Pool(maxNum, false, false, [], [], [], map[], 0, [])
  }

  /** The growth rule of `run`: no idle worker and fewer workers than the
      maximum. */
  predicate ShouldSpawn(p: Pool) {
    |p.free| == 0 && |p.generated| < p.maxNum
  }

  /** The body of `run` behind its `cancel` test: spawn one worker when the
      growth rule holds (the new thread registers itself in the same atomic
      step), then append the task at the tail. */
  function Enqueue(p: Pool, id: nat, hasCallback: bool): (r: Pool)
    ensures r.queue == p.queue + [Task(id, hasCallback)]
    ensures ShouldSpawn(p) ==>
      && r.generated == p.generated + [p.nextId]
      && r.workers == p.workers[p.nextId := Fetching]
      && r.nextId == p.nextId + 1
    ensures !ShouldSpawn(p) ==>
      r.generated == p.generated && r.workers == p.workers && r.nextId == p.nextId
    ensures r == p.(generated := r.generated, workers := r.workers, nextId := r.nextId, queue := r.queue)
  {
    var spawned :=
      if ShouldSpawn(p) then
        p.(generated := p.generated + [p.nextId],
           workers := p.workers[p.nextId := Fetching],
           nextId := p.nextId + 1)
      else p;
    spawned.(queue := spawned.queue + [Task(id, hasCallback)])
  }

  /** `run(func, args, callback)`. After `close` it does nothing; otherwise
      the `cancel` test and the rest of the call happen in one atomic step. */
  function Submit(p: Pool, id: nat, hasCallback: bool): (r: Pool)
    ensures p.cancel ==> r == p
    ensures !p.cancel ==> r.queue == p.queue + [Task(id, hasCallback)]
    ensures !p.cancel && ShouldSpawn(p) ==>
      && r.generated == p.generated + [p.nextId]
      && r.workers == p.workers[p.nextId := Fetching]
      && r.nextId == p.nextId + 1
    ensures !ShouldSpawn(p) ==>
      r.generated == p.generated && r.workers == p.workers && r.nextId == p.nextId
    ensures r.free == p.free && r.callbacks == p.callbacks && r.maxNum == p.maxNum
    ensures r.cancel == p.cancel && r.terminal == p.terminal
    ensures |p.generated| <= Bound(p.maxNum) ==> |r.generated| <= Bound(r.maxNum)
  {
    if p.cancel then p else Enqueue(p, id, hasCallback)
  }

  /** `close()`: raises `cancel` and appends one stop marker per generated
      worker plus one, behind everything already queued. */
  function Close(p: Pool): (r: Pool)
    ensures r.cancel
    ensures |r.queue| == |p.queue| + |p.generated| + 1
    ensures r.queue[..|p.queue|] == p.queue
    ensures forall i :: |p.queue| <= i < |r.queue| ==> r.queue[i] == Stop
    ensures r == p.(cancel := true, queue := r.queue)
  {
    p.(cancel := true, queue := p.queue + Stops(|p.generated| + 1))
  }

  /** First step of `terminate()`: raise `terminal`. */
  function BeginTerminate(p: Pool): (r: Pool)
    ensures r.terminal
    ensures r == p.(terminal := true)
  {
    p.(terminal := true)
  }

  /** One turn of the waiting loop of `terminate()`: while some worker is
      still generated, push another stop marker. The pushed marker adds no
      work and reorders none: the queued tasks are the same afterwards. */
  function PushStop(p: Pool): (r: Pool)
    requires p.terminal && |p.generated| > 0
    ensures r.queue == p.queue + [Stop]
    ensures Tasks(r.queue) == Tasks(p.queue)
    ensures StopsTrail(p.queue) ==> StopsTrail(r.queue)
    ensures r == p.(queue := r.queue)
  {
    TasksAppend(p.queue, [Stop]);
    assert StopsTrail(p.queue) ==> StopsTrail(p.queue + [Stop]) by {
      if StopsTrail(p.queue) {
        AppendStops(p.queue, [Stop]);
      }
    }
    p.(queue := p.queue + [Stop])
  }

  /** Last step of `terminate()`, taken once no worker is generated: discard
      whatever is still queued. */
  function FinishTerminate(p: Pool): (r: Pool)
    requires p.terminal && |p.generated| == 0
    ensures r.terminal && |r.generated| == 0 && |r.queue| == 0
    ensures r == p.(queue := [])
  {
    p.(queue := [])
  }
}

=== FILE: properties.dfy ===
/** What the pool promises its callers and its workers, stated over the
    transition system: the growth bound, the shape of the queue after
    `close`, one exit per worker, the idle guard, outcome reporting and the
    two shutdown modes. */
module Properties {
  import opened Lists
  import opened TaskQueue
  import opened Pool
  import opened Worker
  import opened Machine

  // ---------------------------------------------------------------------------
  // Growth

  /** Workers that currently hold a task. */
  ghost function Running(p: Pool): set<nat> {
    set w | w in p.workers && p.workers[w].Holding? && p.workers[w].item.Task?
  }

  /** A list has at most as many distinct values as elements. */
  lemma {:induction false} DistinctAtMostLength<T>(s: seq<T>)
    ensures |set x | x in s| <= |s|
    decreases |s|
  {
    if s != [] {
      DistinctAtMostLength(s[1..]);
      assert (set x | x in s) == {s[0]} + (set x | x in s[1..]);
    }
  }

  /** `run` creates a worker exactly when the pool is open, no worker is in
      the idle guard (a worker blocked in its first fetch does not count) and
      fewer than `max_num` are generated; the count never passes the
      maximum. */
  lemma SpawnOnlyWithoutIdleWorker(p: Pool, id: nat, cb: bool)
    requires Inv(p)
    ensures |Submit(p, id, cb).generated| == |p.generated| + 1 <==>
      && !p.cancel
      && (forall w :: w in p.workers ==> !InGuard(p.workers[w]))
      && |p.generated| < p.maxNum
    ensures |Submit(p, id, cb).generated| != |p.generated| ==>
      |Submit(p, id, cb).generated| == |p.generated| + 1
    ensures |Submit(p, id, cb).generated| <= Bound(p.maxNum)
  {
    if |p.free| > 0 {
      assert p.free[0] in p.free;
    }
  }

  /** No more tasks run at once than `max_num` allows. */
  lemma RunningTasksBounded(p: Pool)
    requires Inv(p)
    ensures |Running(p)| <= |p.generated| <= Bound(p.maxNum)
  {
    DistinctAtMostLength(p.generated);
    var g := set x | x in p.generated;
    assert Running(p) <= g;
    assert g == Running(p) + (g - Running(p));
  }

  lemma ReachableGrowthBound(p: Pool)
    requires Reachable(p)
    ensures |p.generated| <= Bound(p.maxNum)
    ensures |Running(p)| <= Bound(p.maxNum)
  {
    ReachableInv(p);
    RunningTasksBounded(p);
  }

  /** The number of `run` calls in an interleaving. */
  function Submits(trace: seq<Step>): (n: nat)
    ensures n <= |trace|
    ensures (forall i :: 0 <= i < |trace| ==> !trace[i].SubmitStep?) ==> n == 0
  {
    if trace == [] then 0
    else (if trace[0].SubmitStep? then 1 else 0) + Submits(trace[1..])
  }

  /** Only `run` spawns, and each call spawns at most one worker. */
  lemma {:induction false} SpawnsBoundedBySubmits(p: Pool, trace: seq<Step>)
    requires Execute(p, trace).Some?
    ensures Execute(p, trace).value.nextId <= p.nextId + Submits(trace)
    decreases |trace|
  {
    if trace != [] {
      var s := trace[0];
      var q := Next(p, s);
      assert q.nextId <= p.nextId + (if s.SubmitStep? then 1 else 0);
      SpawnsBoundedBySubmits(q, trace[1..]);
    }
  }

  /** A duplicate-free list of numbers below `n` has at most `n` elements. */
  lemma {:induction false} NoDupBelow(s: seq<nat>, n: nat)
    requires NoDup(s) && forall x :: x in s ==> x < n
    ensures |s| <= n
    decreases n
  {
    if s != [] {
      assert s[0] in s;
      if n - 1 in s {
        RemoveExactly(s, n - 1);
        NoDupBelow(Remove(s, n - 1), n - 1);
      } else {
        NoDupBelow(s, n - 1);
      }
    }
  }

  /** Threads are started according to the work: along any interleaving
      from a fresh pool, no more workers are generated, and no more tasks
      run at once, than `run` has been called, nor than `max_num` allows. */
  lemma GrowthBoundedBySubmissions(maxNum: int, trace: seq<Step>)
    requires Execute(New(maxNum), trace).Some?
    ensures var p := Execute(New(maxNum), trace).value;
      && |Running(p)| <= |p.generated|
      && |p.generated| <= Submits(trace)
      && |p.generated| <= Bound(maxNum)
  {
    NewSatisfiesInv(maxNum);
    SpawnsBoundedBySubmits(New(maxNum), trace);
    var p := Execute(New(maxNum), trace).value;
    NoDupBelow(p.generated, p.nextId);
    RunningTasksBounded(p);
  }

  // ---------------------------------------------------------------------------
  // Closing: tasks first, then stops, and nothing new behind them

  /** `a` is what is left of `b` after some elements left from its front. */
  predicate IsSuffix<T(==)>(a: seq<T>, b: seq<T>) {
    |a| <= |b| && a == b[|b| - |a|..]
  }

  lemma SuffixTransitive<T>(a: seq<T>, b: seq<T>, c: seq<T>)
    requires IsSuffix(a, b) && IsSuffix(b, c)
    ensures IsSuffix(a, c)
  {
  }

  /** Closing an open pool leaves the queue as the tasks already submitted,
      in order, followed by `|generate_list| + 1` stop markers. */
  lemma CloseQueueShape(p: Pool)
    requires Inv(p) && !p.cancel && !p.terminal
    ensures var q := Close(p).queue;
      && Tasks(q) == p.queue
      && StopsTrail(q)
      && |q| - |Tasks(q)| == |p.generated| + 1
  {
    var stops := Stops(|p.generated| + 1);
    assert Close(p).queue == p.queue + stops;
    TasksAppend(p.queue, stops);
    TasksOfStops(stops);
    TasksOfTaskQueue(p.queue);
    AppendStops(p.queue, stops);
  }

  lemma {:induction false} TasksOfTaskQueue(q: seq<Item>)
    requires Stop !in q
    ensures Tasks(q) == q
    decreases |q|
  {
    if q != [] {
      assert q[0] in q;
      assert forall x :: x in q[1..] ==> x in q;
      TasksOfTaskQueue(q[1..]);
      assert q == [q[0]] + q[1..];
    }
  }

  /** Taking the head removes at most the first task. */
  lemma DequeueTasks(q: seq<Item>)
    requires |q| > 0
    ensures IsSuffix(Tasks(q[1..]), Tasks(q))
  {
  }

  /** Once `cancel` is raised, no step adds a task to the queue: tasks leave
      only from the front, in order. */
  lemma ClosedStepDrainsFromFront(p: Pool, s: Step)
    requires p.cancel && Enabled(p, s)
    ensures Next(p, s).cancel
    ensures IsSuffix(Tasks(Next(p, s).queue), Tasks(p.queue))
  {
    match s
    case CloseStep =>
      var stops := Stops(|p.generated| + 1);
      assert Close(p).queue == p.queue + stops;
      TasksAppend(p.queue, stops);
      TasksOfStops(stops);
    case PushStopStep =>
      TasksAppend(p.queue, [Stop]);
    case FetchStep(w) => DequeueTasks(p.queue);
    case GetStep(w) => DequeueTasks(p.queue);
    case _ =>
  }

  /** Along any interleaving after `close`, the queued tasks are a suffix of
      those queued when it began: no task ever lands behind the stops. */
  lemma {:induction false} ClosedTasksDrainFromFront(p: Pool, trace: seq<Step>)
    requires p.cancel && Execute(p, trace).Some?
    ensures Execute(p, trace).value.cancel
    ensures IsSuffix(Tasks(Execute(p, trace).value.queue), Tasks(p.queue))
    decreases |trace|
  {
    if trace != [] {
      var p1 := Next(p, trace[0]);
      ClosedStepDrainsFromFront(p, trace[0]);
      ClosedTasksDrainFromFront(p1, trace[1..]);
      SuffixTransitive(Tasks(Execute(p, trace).value.queue), Tasks(p1.queue), Tasks(p.queue));
    }
  }

  /** Short of `terminate`, a worker only ever draws a stop marker after the
      queue has run out of tasks, and only after `close`. */
  lemma StopOnlyAfterDrain(p: Pool, w: nat)
    requires Reachable(p) && !p.terminal
    requires w in p.workers && Stopped(p.workers[w])
    ensures p.cancel && Tasks(p.queue) == []
  {
    ReachableInv(p);
    TasksOfStops(p.queue);
  }

  // ---------------------------------------------------------------------------
  // One exit per worker

  /** A generated worker leaves `generate_list` in a step exactly when that
      step is its own exit, which it takes only holding a stop marker, never
      a task. */
  lemma LeavesGeneratedOnlyOnStop(p: Pool, s: Step, w: nat)
    requires Inv(p) && Enabled(p, s) && w in p.generated
    ensures w !in Next(p, s).generated <==> s == ExitStep(w)
    ensures s == ExitStep(w) ==> p.workers[w] == Holding(Stop)
  {
    if s.ExitStep? {
      RemoveExactly(p.generated, s.w);
    }
  }

  /** An exited worker stays exited and never rejoins `generate_list`, so it
      is removed once. */
  lemma ExitedStaysOut(p: Pool, s: Step, w: nat)
    requires Inv(p) && Enabled(p, s) && InPhase(p, w, Exited)
    ensures InPhase(Next(p, s), w, Exited)
    ensures w !in Next(p, s).generated
  {
    if s.ExitStep? {
      RemoveExactly(p.generated, s.w);
    }
  }

  // ---------------------------------------------------------------------------
  // The idle guard `worker_state`

  /** Entering puts the worker in the list; leaving restores the list's
      contents, and the list itself when the worker was not already in it. */
  lemma WorkerStateRestoresIdle(free: seq<nat>, w: nat)
    ensures w in EnterIdle(free, w)
    ensures multiset(LeaveIdle(EnterIdle(free, w), w)) == multiset(free)
    ensures w !in free ==> LeaveIdle(EnterIdle(free, w), w) == free
  {
    RemoveAppendedContents(free, w);
    if w !in free {
      RemoveAppended(free, w);
    }
  }

  /** Run a task, enter the guard, leave it with the next item: with no other
      thread in between, `free_list` is back where it started, and while in
      the guard the worker is a member. */
  lemma IdleGuardRoundTrip(p: Pool, w: nat, o: Outcome, cb: CallbackEnd)
    requires Inv(p) && Enabled(p, RunStep(w, o, cb))
    ensures var p1 := RunTask(p, w, o, cb);
      && w in p1.free && Enabled(p1, CheckStep(w))
      && (p.terminal ==> IdleCheck(p1, w).free == p.free)
      && (!p.terminal ==> w in IdleCheck(p1, w).free)
    ensures var p2 := IdleCheck(RunTask(p, w, o, cb), w);
      !p.terminal && |p.queue| > 0 ==> Enabled(p2, GetStep(w)) && IdleGet(p2, w).free == p.free
  {
    assert w !in p.free;
    RunEntersGuard(p, w, o, cb);
    if p.terminal {
      RunThenLeave(p, w, o, cb);
    } else if |p.queue| > 0 {
      RunWaitThenLeave(p, w, o, cb);
    }
  }

  /** Inside the guard the worker is a member and can always test `terminal`. */
  lemma RunEntersGuard(p: Pool, w: nat, o: Outcome, cb: CallbackEnd)
    requires Enabled(p, RunStep(w, o, cb)) && w !in p.free
    ensures w in RunTask(p, w, o, cb).free
    ensures Enabled(RunTask(p, w, o, cb), CheckStep(w))
    ensures !p.terminal ==> w in IdleCheck(RunTask(p, w, o, cb), w).free
  {
  }

  /** With `terminal` up, leaving right after entering restores `free_list`. */
  lemma RunThenLeave(p: Pool, w: nat, o: Outcome, cb: CallbackEnd)
    requires Enabled(p, RunStep(w, o, cb)) && w !in p.free && p.terminal
    ensures IdleCheck(RunTask(p, w, o, cb), w).free == p.free
  {
    var p1 := RunTask(p, w, o, cb);
    assert p1.free == p.free + [w];
    RemoveAppended(p.free, w);
  }

  /** With `terminal` down, waiting and then receiving an item restores
      `free_list`. */
  lemma RunWaitThenLeave(p: Pool, w: nat, o: Outcome, cb: CallbackEnd)
    requires Enabled(p, RunStep(w, o, cb)) && w !in p.free && !p.terminal && |p.queue| > 0
    ensures Enabled(IdleCheck(RunTask(p, w, o, cb), w), GetStep(w))
    ensures IdleGet(IdleCheck(RunTask(p, w, o, cb), w), w).free == p.free
  {
    var p2 := IdleCheck(RunTask(p, w, o, cb), w);
    assert p2.free == p.free + [w];
    assert p2.queue == p.queue;
    RemoveAppended(p.free, w);
  }

  /** Leaving the guard, by either exit, removes the worker itself and no
      other, whatever the other threads did while it waited. */
  lemma LeaveIdleRemovesOnlySelf(p: Pool, s: Step)
    requires Inv(p) && Enabled(p, s) && (s.CheckStep? || s.GetStep?)
    ensures forall v :: v != s.w ==> (v in Next(p, s).free <==> v in p.free)
    ensures s.w in Next(p, s).free <==> s.CheckStep? && !p.terminal
  {
    if s.GetStep? || p.terminal {
      RemoveExactly(p.free, s.w);
    }
  }

  // ---------------------------------------------------------------------------
  // Outcome reporting

  /** The callback's arguments determine the task's outcome: a report read
      back gives the outcome it came from. */
  lemma ReportRoundTrip(task: nat, o: Outcome)
    ensures OutcomeOf(Report(task, o)) == o
  {
  }

  /** A raising callback leaves the pool exactly as a returning one does. */
  lemma CallbackFailureIsolated(p: Pool, w: nat, o: Outcome)
    requires Enabled(p, RunStep(w, o, CallbackRaised))
    ensures RunTask(p, w, o, CallbackRaised) == RunTask(p, w, o, CallbackReturned)
  {
  }

  // ---------------------------------------------------------------------------
  // Terminating

  /** A worker that finishes a task after `terminal` is raised is never
      blocked: its next item is a stop marker and it leaves the queue alone. */
  lemma TerminalIdleWorkerStops(p: Pool, w: nat)
    requires Inv(p) && p.terminal && InPhase(p, w, Idle)
    ensures Enabled(p, CheckStep(w))
    ensures IdleCheck(p, w).queue == p.queue
    ensures InPhase(IdleCheck(p, w), w, Holding(Stop))
  {
  }

  /** `terminate` raises only `terminal`, and `run` tests only `cancel`: after
      the first step of `terminate`, `run` still queues the task and still
      spawns exactly as the growth rule says. */
  lemma TerminateLeavesRunOpen(p: Pool, id: nat, cb: bool)
    requires !p.cancel
    ensures var r := Submit(BeginTerminate(p), id, cb);
      && r.terminal
      && r.queue == p.queue + [Task(id, cb)]
      && (|r.generated| == |p.generated| + 1 <==> ShouldSpawn(p))
  {
  }

  /** When `terminate` returns, `terminal` is up, no worker is live and the
      queue is empty. */
  lemma TerminateCompletes(p: Pool)
    requires Inv(p) && Enabled(p, FinishTerminateStep)
    ensures var r := Next(p, FinishTerminateStep);
      && r.terminal && r.generated == [] && r.queue == []
      && forall w :: w in r.workers ==> r.workers[w] == Exited
  {
  }

  /** `terminate` sets only `terminal`, and `run` tests only `cancel`: a task
      submitted after `terminate` is still queued, a worker spawned for it and
      its callback invoked. */
  lemma SubmitAfterTerminateStillRuns()
    ensures var r := Execute(New(1), [TerminateStep, SubmitStep(7, true), FetchStep(0),
                                      RunStep(0, Returned(NoneValue), CallbackReturned)]);
      r.Some? && r.value.callbacks == [Invocation(7, true, NoneValue)]
  {
    var p0 := New(1);
    var p1 := Pool(1, false, true, [], [], [], map[], 0, []);
    var p2 := Pool(1, false, true, [0], [], [Task(7, true)], map[0 := Fetching], 1, []);
    var p3 := Pool(1, false, true, [0], [], [], map[0 := Holding(Task(7, true))], 1, []);
    var p4 := Pool(1, false, true, [0], [0], [], map[0 := Idle], 1, [Invocation(7, true, NoneValue)]);
    assert Next(p0, TerminateStep) == p1;
    assert Next(p1, SubmitStep(7, true)) == p2;
    assert Next(p2, FetchStep(0)) == p3;
    assert Next(p3, RunStep(0, Returned(NoneValue), CallbackReturned)) == p4;
    ExecuteFirst(p3, RunStep(0, Returned(NoneValue), CallbackReturned), []);
    ExecuteFirst(p2, FetchStep(0), [RunStep(0, Returned(NoneValue), CallbackReturned)]);
    ExecuteFirst(p1, SubmitStep(7, true), [FetchStep(0), RunStep(0, Returned(NoneValue), CallbackReturned)]);
    ExecuteFirst(p0, TerminateStep, [SubmitStep(7, true), FetchStep(0), RunStep(0, Returned(NoneValue), CallbackReturned)]);
  }

  /** A worker's first fetch does not test `terminal`, so a task still queued
      when `terminate` is called can be claimed and reported. */
  lemma QueuedTaskRunsAfterTerminate()
    ensures var r := Execute(New(1), [SubmitStep(7, true), TerminateStep, FetchStep(0),
                                      RunStep(0, Raised, CallbackRaised)]);
      r.Some? && r.value.terminal && r.value.callbacks == [Invocation(7, false, NoneValue)]
  {
    var p0 := New(1);
    var p1 := Pool(1, false, false, [0], [], [Task(7, true)], map[0 := Fetching], 1, []);
    var p2 := Pool(1, false, true, [0], [], [Task(7, true)], map[0 := Fetching], 1, []);
    var p3 := Pool(1, false, true, [0], [], [], map[0 := Holding(Task(7, true))], 1, []);
    var p4 := Pool(1, false, true, [0], [0], [], map[0 := Idle], 1, [Invocation(7, false, NoneValue)]);
    assert Next(p0, SubmitStep(7, true)) == p1;
    assert Next(p1, TerminateStep) == p2;
    assert Next(p2, FetchStep(0)) == p3;
    assert Next(p3, RunStep(0, Raised, CallbackRaised)) == p4;
    ExecuteFirst(p3, RunStep(0, Raised, CallbackRaised), []);
    ExecuteFirst(p2, FetchStep(0), [RunStep(0, Raised, CallbackRaised)]);
    ExecuteFirst(p1, TerminateStep, [FetchStep(0), RunStep(0, Raised, CallbackRaised)]);
    ExecuteFirst(p0, SubmitStep(7, true), [TerminateStep, FetchStep(0), RunStep(0, Raised, CallbackRaised)]);
  }

  /** A worker that tested `terminal` before `terminate` raised it is already
      blocked in `q.get()`: a task submitted to a pool that is not closed,
      before or after `terminate` raises `terminal`, is still handed to that
      worker. */
  lemma WaitingWorkerClaimsTaskAfterTerminate(p: Pool, w: nat, id: nat)
    requires Inv(p) && !p.cancel && InPhase(p, w, Waiting) && |p.queue| == 0
    ensures var p2 := BeginTerminate(Submit(p, id, true));
      && p2.terminal
      && Enabled(p2, GetStep(w))
      && InPhase(IdleGet(p2, w), w, Holding(Task(id, true)))
    ensures var p3 := Submit(BeginTerminate(p), id, true);
      && p3.terminal
      && Enabled(p3, GetStep(w))
      && InPhase(IdleGet(p3, w), w, Holding(Task(id, true)))
  {
    var p2 := BeginTerminate(Submit(p, id, true));
    assert w in p.free;
    assert p2.queue == [Task(id, true)];
    assert Submit(BeginTerminate(p), id, true).queue == [Task(id, true)];
  }
}

=== FILE: racy_run.dfy ===
/** `run` as written tests `cancel` once, at its top, and puts the task on the
    queue later. A `close` that runs completely in between puts its stop
    markers in front of the task. */
module RacyRun {
  import opened TaskQueue
  import opened Pool
  import opened Worker

  /** A `run` whose `cancel` test passed on a fresh pool (where `cancel` is
      down), then a complete `close`,
      then the rest of the `run`: the new worker draws the stop marker and
      exits, and the task stays queued with no worker left. `cancel` is up,
      so no later `run` spawns one: the task never runs. */
  lemma LateRunStrandsTask()
    ensures var p := Enqueue(Close(New(1)), 0, true);
      && p.queue == [Stop, Task(0, true)]
      && !StopsTrail(p.queue)
    ensures var p := Exit(FirstFetch(Enqueue(Close(New(1)), 0, true), 0), 0);
      && p.cancel && p.generated == [] && p.queue == [Task(0, true)]
      && Submit(p, 1, false) == p
  {
    var p1 := Close(New(1));
    assert p1.queue == [Stop] && p1.generated == [] && p1.free == [];
    var p2 := Enqueue(p1, 0, true);
    assert p2.queue == [Stop, Task(0, true)] && p2.generated == [0];
    assert p2.queue[0].Stop? && p2.queue[1].Task?;
    var p3 := FirstFetch(p2, 0);
    assert p3.queue == [Task(0, true)];
  }
}

=== FILE: racy_spawn.dfy ===
/** `run` as written: `generate_thread` only starts the thread, and the thread
    appends itself to `generate_list` later, on its own schedule. The growth
    test in `run` reads the list length before that happens. */
module RacySpawn {
  import opened TaskQueue
  import opened Pool
  import opened Worker

  /** `run` with the registration left to the new thread. */
  function SubmitAsWritten(p: Pool, id: nat, hasCallback: bool): (r: Pool)
    ensures p.cancel ==> r == p
    ensures !p.cancel ==> r.queue == p.queue + [Task(id, hasCallback)]
    ensures r.generated == p.generated
    ensures !p.cancel && ShouldSpawn(p) ==>
      r.workers == p.workers[p.nextId := Starting] && r.nextId == p.nextId + 1
    ensures !ShouldSpawn(p) ==> r.workers == p.workers && r.nextId == p.nextId
  {
    if p.cancel then p
    else
      var spawned :=
        if ShouldSpawn(p) then
          p.(workers := p.workers[p.nextId := Starting], nextId := p.nextId + 1)
        else p;
      spawned.(queue := spawned.queue + [Task(id, hasCallback)])
  }

  /** The started thread runs `generate_list.append(current_thread)`. */
  function Register(p: Pool, w: nat): (r: Pool)
    requires InPhase(p, w, Starting)
    ensures r.generated == p.generated + [w]
    ensures InPhase(r, w, Fetching)
    ensures r == p.(generated := r.generated, workers := r.workers)
  {
    p.(generated := p.generated + [w], workers := p.workers[w := Fetching])
  }

  /** Threads started and not yet exited. */
  ghost function Live(p: Pool): set<nat> {
    set w | w in p.workers && p.workers[w] != Exited
  }

  /** With `max_num` 1, two `run` calls before the first thread registers
      start two threads, and once both register `generate_list` holds two. */
  lemma AsWrittenExceedsMax()
    ensures var p := SubmitAsWritten(SubmitAsWritten(New(1), 0, false), 1, false);
      && p.maxNum == 1
      && Live(p) == {0, 1}
      && |Register(Register(p, 0), 1).generated| == 2
  {
    var p1 := SubmitAsWritten(New(1), 0, false);
    assert p1.workers == map[0 := Starting] && p1.generated == [] && p1.free == [];
    var p2 := SubmitAsWritten(p1, 1, false);
    assert p2.workers == map[0 := Starting, 1 := Starting];
    assert Live(p2) == {0, 1};
  }
}

=== FILE: task_queue.dfy ===
/** The pool's shared FIFO channel (`self.q`). Its elements are tagged: a
    submitted task or the stop marker, which the source represents by the
    sentinel object `StopEvent`. */
module TaskQueue {

  /** A queued unit of work. `id` stands for the submitted `(func, args)`
      pair; `hasCallback` records whether a callback was supplied. */
  datatype Item = Task(id: nat, hasCallback: bool) | Stop

  /** `n` stop markers in a row. */
  function Stops(n: nat): (r: seq<Item>)
    ensures |r| == n
    ensures forall i :: 0 <= i < |r| ==> r[i] == Stop
  {
    if n == 0 then [] else Stops(n - 1) + [Stop]
  }

  /** Every element is a stop marker. */
  predicate AllStops(q: seq<Item>) {
    forall i :: 0 <= i < |q| ==> q[i].Stop?
  }

  /** No task stands behind a stop marker: the queue is some tasks followed
      by some stops. */
  predicate StopsTrail(q: seq<Item>) {
    forall i, j :: 0 <= i < j < |q| && q[i].Stop? ==> q[j].Stop?
  }

  /** The tasks of the queue, in queue order, with the stop markers dropped. */
  function Tasks(q: seq<Item>): (r: seq<Item>)
    ensures forall i :: 0 <= i < |r| ==> r[i].Task?
    ensures multiset(r) == multiset(q)[Stop := 0]
  {
    if q == [] then []
    else
      assert q == [q[0]] + q[1..];
      if q[0].Task? then [q[0]] + Tasks(q[1..])
      else Tasks(q[1..])
  }

  /** Filtering distributes over concatenation. */
  lemma {:induction false} TasksAppend(a: seq<Item>, b: seq<Item>)
    ensures Tasks(a + b) == Tasks(a) + Tasks(b)
    decreases |a|
  {
    if a == [] {
      assert a + b == b;
    } else {
      assert (a + b)[1..] == a[1..] + b;
      TasksAppend(a[1..], b);
    }
  }

  /** Stop markers contribute no tasks. */
  lemma {:induction false} TasksOfStops(s: seq<Item>)
    requires AllStops(s)
    ensures Tasks(s) == []
    decreases |s|
  {
    if s != [] {
      assert AllStops(s[1..]) by {
        forall i | 0 <= i < |s[1..]| ensures s[1..][i].Stop? {
          assert s[1..][i] == s[i + 1];
        }
      }
      TasksOfStops(s[1..]);
    }
  }

  /** Appending stop markers behind a queue whose stops already trail keeps
      them trailing. */
  lemma AppendStops(q: seq<Item>, s: seq<Item>)
    requires StopsTrail(q) && AllStops(s)
    ensures StopsTrail(q + s)
  {
    var r := q + s;
    forall i, j | 0 <= i < j < |r| && r[i].Stop?
      ensures r[j].Stop?
    {
      if j < |q| {
        assert r[i] == q[i] && r[j] == q[j];
      } else {
        assert r[j] == s[j - |q|];
      }
    }
  }

  /** A task appended to a stop-free queue leaves no stop in front of a task. */
  lemma AppendTask(q: seq<Item>, t: Item)
    requires Stop !in q && t.Task?
    ensures Stop !in q + [t]
    ensures StopsTrail(q + [t])
  {
  }

  /** Taking the head keeps stops trailing. */
  lemma DequeueKeepsOrder(q: seq<Item>)
    requires |q| > 0 && StopsTrail(q)
    ensures StopsTrail(q[1..])
  {
  }

  /** Once the head is a stop marker, everything behind it is too: a worker
      that draws a stop has seen every task before it leave the queue. */
  lemma StopHeadMeansDrained(q: seq<Item>)
    requires |q| > 0 && StopsTrail(q) && q[0] == Stop
    ensures AllStops(q)
  {
  }
}

=== FILE: worker.dfy ===
/** The worker loop `ThreadPool.call`, cut into atomic steps, together with
    the idle guard `worker_state` and the reporting of a task's outcome. */
module Worker {
  import opened Lists
  import opened TaskQueue
  import opened Pool

  /** How the task function ended: it returned a value, or it raised. */
  datatype Outcome = Returned(value: Value) | Raised

  /** How the callback ended. Either way the worker carries on. */
  datatype CallbackEnd = CallbackReturned | CallbackRaised

  /** The arguments `(success, result)` the callback receives for an outcome. */
  function Report(task: nat, o: Outcome): (inv: Invocation)
    ensures inv.task == task
    ensures inv.success <==> o.Returned?
    ensures o.Raised? ==> inv.result == NoneValue
  {
    match o
    case Returned(v) => Invocation(task, true, v)
    case Raised => Invocation(task, false, NoneValue)
  }

  /** Recovers the outcome a successful report came from; a failed report
      always reads as a raise. */
  function OutcomeOf(inv: Invocation): (o: Outcome)
    ensures o.Returned? <==> inv.success
  {
    if inv.success then Returned(inv.result) else Raised
  }

  /** Entering the idle guard: `state_list.append(worker)`. */
  function EnterIdle(free: seq<nat>, w: nat): (r: seq<nat>)
    ensures w in r
    ensures forall v :: v in free ==> v in r
  {
    free + [w]
  }

  /** Leaving the idle guard, on every exit path: `state_list.remove(worker)`. */
  function LeaveIdle(free: seq<nat>, w: nat): (r: seq<nat>)
    requires w in free
    ensures multiset(r) == multiset(free) - multiset{w}
  {
    RemoveContents(free, w);
    Remove(free, w)
  }

  /** The phase worker `w` is in, if it exists. */
  predicate InPhase(p: Pool, w: nat, ph: Phase) {
    w in p.workers && p.workers[w] == ph
  }

  /** The first `q.get()` of a freshly spawned worker: take the head. It does
      not look at `terminal`. Blocks (is not enabled) on an empty queue. */
  function FirstFetch(p: Pool, w: nat): (r: Pool)
    requires InPhase(p, w, Fetching) && |p.queue| > 0
    ensures r.queue == p.queue[1..]
    ensures InPhase(r, w, Holding(p.queue[0]))
    ensures r == p.(queue := r.queue, workers := r.workers)
    ensures forall v :: v != w && v in p.workers ==> v in r.workers && r.workers[v] == p.workers[v]
    ensures r.workers.Keys == p.workers.Keys
  {
    p.(queue := p.queue[1..], workers := p.workers[w := Holding(p.queue[0])])
  }

  /** Running a held task: call the function inside a failure boundary,
      invoke the callback if there is one (a raising callback is swallowed),
      then enter the idle guard. */
  function RunTask(p: Pool, w: nat, o: Outcome, cb: CallbackEnd): (r: Pool)
    requires w in p.workers && p.workers[w].Holding? && p.workers[w].item.Task?
    ensures var t := p.workers[w].item;
      && (t.hasCallback ==> r.callbacks == p.callbacks + [Report(t.id, o)])
      && (!t.hasCallback ==> r.callbacks == p.callbacks)
    ensures r.free == EnterIdle(p.free, w)
    ensures InPhase(r, w, Idle)
    ensures r == p.(free := r.free, workers := r.workers, callbacks := r.callbacks)
    ensures forall v :: v != w && v in p.workers ==> v in r.workers && r.workers[v] == p.workers[v]
    ensures r.workers.Keys == p.workers.Keys
  {
    var t := p.workers[w].item;
    var log := if t.hasCallback then p.callbacks + [Report(t.id, o)] else p.callbacks;
    p.(callbacks := log, free := EnterIdle(p.free, w), workers := p.workers[w := Idle])
  }

  /** Inside the idle guard, the `terminal` test. With `terminal` raised the
      next item is a stop marker, nothing is dequeued and the guard is left;
      otherwise the worker goes on to wait in `q.get()`, still in the guard. */
  function IdleCheck(p: Pool, w: nat): (r: Pool)
    requires InPhase(p, w, Idle) && w in p.free
    ensures p.terminal ==> r.free == LeaveIdle(p.free, w) && InPhase(r, w, Holding(Stop))
    ensures !p.terminal ==> r.free == p.free && InPhase(r, w, Waiting)
    ensures r == p.(free := r.free, workers := r.workers)
    ensures forall v :: v != w && v in p.workers ==> v in r.workers && r.workers[v] == p.workers[v]
    ensures r.workers.Keys == p.workers.Keys
  {
    if p.terminal then
      p.(free := LeaveIdle(p.free, w), workers := p.workers[w := Holding(Stop)])
    else
      p.(workers := p.workers[w := Waiting])
  }

  /** The `q.get()` inside the idle guard returns the head (blocking on an
      empty queue); the guard is then left. `terminal` is not looked at
      again. */
  function IdleGet(p: Pool, w: nat): (r: Pool)
    requires InPhase(p, w, Waiting) && w in p.free && |p.queue| > 0
    ensures r.free == LeaveIdle(p.free, w)
    ensures r.queue == p.queue[1..] && InPhase(r, w, Holding(p.queue[0]))
    ensures r == p.(queue := r.queue, free := r.free, workers := r.workers)
    ensures forall v :: v != w && v in p.workers ==> v in r.workers && r.workers[v] == p.workers[v]
    ensures r.workers.Keys == p.workers.Keys
  {
    p.(free := LeaveIdle(p.free, w), queue := p.queue[1..], workers := p.workers[w := Holding(p.queue[0])])
  }

  /** The loop test fails on a stop marker: the worker removes itself from
      `generate_list` and ends. */
  function Exit(p: Pool, w: nat): (r: Pool)
    requires InPhase(p, w, Holding(Stop)) && w in p.generated
    ensures r.generated == Remove(p.generated, w)
    ensures |r.generated| == |p.generated| - 1
    ensures InPhase(r, w, Exited)
    ensures r == p.(generated := r.generated, workers := r.workers)
    ensures forall v :: v != w && v in p.workers ==> v in r.workers && r.workers[v] == p.workers[v]
    ensures r.workers.Keys == p.workers.Keys
  {
    p.(generated := Remove(p.generated, w), workers := p.workers[w := Exited])
  }
}
